=== FILE: README.md ===
# tsv: a Dafny model of the header-only TSV loader

`tsv::load<Record>(input, opts)` reads a tab-separated document into a
vector of records. The steps are:

1. Skip leading comment lines and empty lines.
2. Consume one header line, unless disabled.
3. Turn every remaining non-comment line into a record. The line is split at
   a single literal delimiter character, with no quoting, and the pieces are
   converted to the record's field types one by one.
4. Call each record's optional `validate()` hook.

Every failure the library itself detects, and every `tsv::error` a
conversion or the `validate()` hook throws, is reported as a `tsv::error`.
It carries a kind, a message, and once the parser has seen it, the
offending line and its 1-based line number.

This project models that pipeline as pure functions over immutable data and
proves what it computes. The files are:

- `wrappers.dfy`: `Option` and `Result`.
- `decimal.dfy`: decimal digit strings. They give the value of a digit run
  and the `std::to_string` text of a line number.
- `errors.dfy`: the error hierarchy, flattened into one `Error` record with
  a kind tag, the message constants, `describe()` and `check()`.
- `conversion.dfy`: the built-in conversions.
  - `char` accepts exactly one character, that is, one byte.
  - `std::string` is the identity.
  - Integers of the eight standard widths and signednesses are read with
    base-10 `std::from_chars`, as [charconv.from.chars] of the C++ standard
    describes it: an optional minus sign, only for signed types, then the
    longest run of digits.
- `split.dfy`: `split_consume`, and the token loop of `parse_fields`.
- `records.dfy`: `detail::parse_record`. It splits and converts in lockstep.
  It is proved equal to a reference that first cuts the whole line into
  tokens.
- `line_reader.dfy`: the one-line-lookahead reader, with a reachability
  predicate that ties a reader state to the input.
- `parser.dfy`: `skip_comment`, `parse_fields` and `parser::parse_record`.
  The last one re-raises errors stamped with the line.
- `loader.dfy`: `options` and `load`. `load` is proved equal to a reference
  written without a reader. That reference takes the positions of the
  non-comment lines, drops the header and processes each line in order, and
  the user-facing properties of `load` follow from it.
- `behaviours.dfy`: concrete inputs showing the edge cases described
  below.

The input is the document already cut into lines, as successive `getline`
calls deliver it. The C++ code works on bytes: `std::string`, the
`delimiter` and `comment` options, and the `char` field type all count
C++ `char`s. In the model each Dafny `char` stands for one such byte, so a
multi-byte UTF-8 character is several `char`s. The delimiter, the comment
prefix and a `CharField` token are each one byte. The field types of a record are an explicit schema:
`seq<FieldKind>`, whose length is the arity. The conversion of a field is a
function parameter of type `Converter`. `Conversion.Standard(custom)` is the
conversion the header provides, and it sends every field type the header
does not cover to `custom`. The `validate()` hook is a function parameter
that may return an error. A record type without the hook corresponds to
`Loader.NoValidation`.

### How the code behaves at the edges

The model follows the code, which differs from a few of the repository's
test expectations:

- **A delimiter at the end of a line produces no trailing empty token.**
  `split_consume` leaves an empty remainder after a final delimiter, and the
  token loop stops on an empty remainder.
  - `"\t\t"` yields two empty tokens, not three
    (`Behaviours.TrailingDelimiterTokens`).
  - `"12\t34\t"` parses as a two-field record
    (`Behaviours.TrailingDelimiterRecord`).
- **`"-4"` in an unsigned field is the generic "parse error".** It is not
  "value out of range", because `from_chars` does not accept a minus sign
  for an unsigned type (`Behaviours.NegativeIntoUnsigned`).
- **The line number counts lines fetched from the stream.** The first
  `peek` of a line fetches it (`Behaviours.PeekCountsLine`).
- **A failed `parse_record` has already consumed its line.** A caller that
  catches the error and calls again is given the next line
  (`Behaviours.ParseRecordResumesAfterError`).
- **With the default comment prefix, lines starting with NUL are still
  skipped.** The default prefix is the NUL character, and the comment test
  is a plain comparison of the first character (`Behaviours.NulLineSkipped`).

## Model

| member | source | states |
|---|---|---|
| Errors.CText | include/tsv.hpp:103 | `what()` gives the message as a C string: the longest prefix without a NUL byte, ending where the message ends or at its first NUL |
| Errors.CTextWithoutNul | include/tsv.hpp:103 | a message without a NUL byte comes back whole |
| Errors.Describe | include/tsv.hpp:101-118 | the description is the `what()` text, then ` (at line N)` with N in canonical decimal exactly when the line number is non-zero, then `: "line"` with the whole line exactly when the line is non-empty; each of the four cases is stated separately |
| Errors.DescribeShowsWholeMessage | include/tsv.hpp:101-118 | a message without a NUL byte heads its description whole |
| Errors.DescribeDistinguishesLineNumbers | include/tsv.hpp:101-118 | two errors with the same message and line have the same description only if their line numbers agree, so the rendered number is unambiguous |
| Errors.Check | include/tsv.hpp:193-199 | `check` fails exactly when the predicate is false, with an unpositioned validation error carrying the message |
| Decimal.NatToString | include/tsv.hpp:107 | the line-number text is canonical decimal (at least one digit, no leading zero) and reads back as the number |
| Conversion.FromChars | include/tsv.hpp:361 | base-10 `from_chars`: invalid argument exactly when no sign-and-digit prefix matches, with nothing consumed; otherwise the end of the longest match, and out of range exactly when its value does not fit the type |
| Conversion.ParseInt | include/tsv.hpp:355-376 | an integer token fails with "parse error" exactly when no number starts it; with "value out of range" exactly when the number does not fit; with the leftover message exactly when it fits but characters follow. The range check comes before the leftover check |
| Conversion.ParseIntCharacterization | include/tsv.hpp:355-376 | an integer token converts exactly when the whole token is in the pattern (a minus sign only for signed types) and its value fits the type; the result is that value |
| Conversion.ParseFormatRoundTrip | include/tsv.hpp:355-376 | every in-range value, written in decimal, reads back as itself |
| Conversion.Convert | include/tsv.hpp:355-399 | a `char` field accepts exactly one-character tokens; a string field is the token itself, the empty one included; an integer field is as ParseInt; other types go to the custom conversion; a result always fits its field type |
| Split.Find | include/tsv.hpp:441 | the first occurrence of the delimiter, or none exactly when it does not occur |
| Split.SplitConsume | include/tsv.hpp:434-451 | fails with "insufficient number of fields" exactly on empty text; otherwise the token holds no delimiter, the remainder is strictly shorter, and either token, delimiter and remainder rebuild the text or the token is the whole text and the remainder is empty |
| Split.Tokens | include/tsv.hpp:589-591 | the token loop yields no token exactly for an empty line, and no token contains the delimiter |
| Split.TokensJoin | include/tsv.hpp:589-591 | the tokens joined by the delimiter give back the line, less its final delimiter when it ends in one |
| Records.ParseValues | include/tsv.hpp:457-467 | a parsed record has exactly one value per schema field |
| Records.LockstepMatchesTokens | include/tsv.hpp:457-467 | splitting in lockstep with conversion gives the same outcome, error included, as cutting the line into all its tokens first (Records.FromTokens) |
| Records.FromTokens | include/tsv.hpp:457-467 | a line parses exactly when it has as many tokens as the schema has fields and every token converts; field i is then the conversion of token i |
| Records.FromTokensFirstFailure | include/tsv.hpp:460-462 | fields are converted left to right: the first token that does not convert decides the error |
| Records.FromTokensCountMismatch | include/tsv.hpp:457-467 | when every token that meets a field converts, too few tokens is "insufficient number of fields" and too many is "excess fields" |
| Records.EmptySchemaAcceptsOnlyEmptyLine | include/tsv.hpp:463-465 | a record with no fields accepts the empty line and nothing else |
| LineReader.EnsureLine | include/tsv.hpp:518-535 | keeps the pending lines; reports false exactly at the end of input; otherwise the buffer holds the next line; the count rises by one exactly when a line is fetched |
| LineReader.Consume | include/tsv.hpp:482-489 | returns the next pending line and removes it, or nothing at the end of input with the reader unchanged; the count rises only by a fetch |
| LineReader.Peek | include/tsv.hpp:495-501 | returns the next pending line without removing it, or nothing at the end of input with the reader unchanged; the count rises only by a fetch |
| LineReader.PeekIdempotent | include/tsv.hpp:495-501 | a second peek returns the same line and neither reads nor counts another |
| LineReader.ConsumeAfterPeek | include/tsv.hpp:482-501 | a consume after a peek returns the peeked line, and the count ends where a consume alone would leave it |
| LineReader.ReadsPending | include/tsv.hpp:470-542 | for a reachable reader, the pending lines are the input after the lines consumed so far |
| LineReader.NewReaderReads | include/tsv.hpp:540-541 | a fresh reader is reachable, at line 0, with nothing consumed |
| LineReader.PeekReads | include/tsv.hpp:495-501 | peeking keeps a reader reachable and consumes nothing |
| LineReader.ConsumeReads | include/tsv.hpp:482-489 | consuming keeps a reader reachable; after a line is returned, the count is that line's 1-based position |
| TsvParser.SkipComment | include/tsv.hpp:555-572 | skipping keeps the delimiter, never adds pending lines, and the count accounts for every line taken from the stream |
| TsvParser.SkipCommentSpec | include/tsv.hpp:555-572 | skipping removes exactly the maximal run of comment lines (empty, or starting with the prefix) from the front of the pending lines; the next line, if any, is not a comment and is buffered |
| TsvParser.SkipCommentReads | include/tsv.hpp:555-572 | skipping keeps a reader reachable |
| TsvParser.ParseFields | include/tsv.hpp:579-594 | at the end of input it returns false and appends nothing; otherwise it consumes one line, keeps the existing entries, and appends tokens that hold no delimiter and join back to the line less at most one final delimiter |
| TsvParser.ParseRecord | include/tsv.hpp:601-622 | at the end of input it reports no record and leaves the parser unchanged; otherwise it consumes one line, whether or not the parse succeeds, and succeeds exactly when the line parses; an error keeps its kind and message and gets the line and the reader's count |
| TsvParser.ParseRecordMovesOn | include/tsv.hpp:604-619 | on a reachable reader with a line left, success or failure, the parser comes back past exactly that line; an error carries that line and its 1-based number |
| TsvParser.ParseRecordFields | include/tsv.hpp:601-622 | in a parsed record, field i is token i of the line converted to field i's type, and the line has exactly one token per field |
| Loader.NonCommentSound | include/tsv.hpp:566 | every listed position is a non-comment line |
| Loader.NonCommentIncreasing | include/tsv.hpp:667-677 | the positions are listed in input order |
| Loader.NonCommentComplete | include/tsv.hpp:566-570 | no non-comment line is left out |
| Loader.CollectSpec | include/tsv.hpp:667-677 | gathering record outcomes succeeds exactly when all do, and then yields the records in order |
| Loader.CollectFirstFailure | include/tsv.hpp:667-677 | the first failing outcome decides the error |
| Loader.ProcessAllSpec | include/tsv.hpp:667-677 | processing the data lines succeeds exactly when every line parses and validates, and then yields each line's record in that line's place |
| Loader.SkipCommentPositions | include/tsv.hpp:658-668 | skipping comments keeps the reader reachable and the non-comment lines ahead unchanged, and leaves the reader on the first of them |
| Loader.LineMatchesParseRecord | include/tsv.hpp:670-674 | one loop turn on a line fails exactly as processing that line alone does, stamped with its 1-based position; otherwise it validates the same record |
| Loader.LoadRecordsMatches | include/tsv.hpp:667-677 | the record loop processes exactly the non-comment lines not yet consumed, in order |
| Loader.LoadTurnMatches | include/tsv.hpp:670-676 | a loop turn taken where comment skipping stops processes the non-comment lines from there on |
| Loader.HeaderLine | include/tsv.hpp:660-665 | the header is the first non-comment line; it exists exactly when such a line is left, and consuming it leaves the non-comment lines after it |
| Loader.LoadRecords | include/tsv.hpp:667-677 | the record loop yields at most one record per pending line; LoadRecordsMatches states its outcome |
| Loader.LoadTurn | include/tsv.hpp:670-676 | a loop turn and the loop after it yield at most one record per pending line; LoadTurnMatches states its outcome |
| Loader.Load | include/tsv.hpp:652-680 | `load` yields at most one record per input line, and fewer records than lines when a header is expected; LoadMatchesReference states its outcome |
| Loader.LoadMatchesReference | include/tsv.hpp:652-680 | `load` equals the reference: a missing header, or every data line processed in order |
| Loader.LoadMissingHeader | include/tsv.hpp:660-664 | with a header expected and no non-comment line, `load` fails with "header is expected but not seen" at line 0, with no line text |
| Loader.LoadSuccess | include/tsv.hpp:652-680 | a successful load has one record per data line, in input order; each record is its line parsed against the schema and passed by the hook |
| Loader.LoadSucceedsWhenAllLinesDo | include/tsv.hpp:652-680 | when every data line parses and passes the hook, `load` succeeds |
| Loader.LoadFirstFailure | include/tsv.hpp:612-619 | the first failing data line decides the error: a parse or format error carries that line and its 1-based number; a validation error is the hook's own, unstamped |
| Loader.DataLinesSpec | include/tsv.hpp:658-668 | the data lines are non-comment lines in increasing order; without a header they are all of them; with a header there are none exactly when every line is a comment, and otherwise they are exactly the non-comment lines after the first one, which is the header |
| Behaviours.TrailingDelimiterTokens | include/tsv.hpp:434-451 | `"\t\t"` gives two empty tokens; `"a\t"` gives the single token `"a"` |
| Behaviours.LeadingDelimiterTokens | include/tsv.hpp:441-445 | a leading delimiter gives a leading empty token |
| Behaviours.TrailingDelimiterFields | include/tsv.hpp:457-467 | for any conversion that accepts `"12"` and `"34"`, `"12\t34\t"` parses as a record of two fields, the conversions of `"12"` and `"34"` |
| Behaviours.TrailingDelimiterRecord | include/tsv.hpp:457-467 | `"12\t34\t"` parses as two unsigned fields 12 and 34 |
| Behaviours.NegativeIntoUnsigned | include/tsv.hpp:363-368 | `"-4"` in an unsigned field is "parse error", while a signed field reads -4 |
| Behaviours.IntegerWithoutDigits | include/tsv.hpp:363-368 | empty text and a plus sign are "parse error" |
| Behaviours.IntegerTooLarge | include/tsv.hpp:363-368 | 256 in an 8-bit unsigned field is "value out of range" |
| Behaviours.IntegerWithLeftover | include/tsv.hpp:371-373 | `"1x"` is the leftover error |
| Behaviours.MultiByteCharRejected | include/tsv.hpp:383-389 | a `char` field given the two bytes of the UTF-8 encoding of "é" fails with "parse error", while one byte on its own converts |
| Behaviours.NulCutsMessage | include/tsv.hpp:103 | `check(false, "a\0b")` describes as `"a"`: the message stops at its NUL byte |
| Behaviours.NulLineSkipped | include/tsv.hpp:566 | with comments disabled, `skip_comment` skips a line starting with NUL like an empty one and stops on the first other line, having counted all three lines; the reference positions agree |
| Behaviours.ParseRecordResumesAfterError | include/tsv.hpp:604-619 | on the lines `"x"` and `"5"` with one unsigned field, the first `parse_record` fails at line 1 with line `"x"`, and a second call parses `5` |
| Behaviours.PeekCountsLine | include/tsv.hpp:495-535 | the first peek counts the line; a consume after it does not count it again |

## Left out

- Input streams: `std::istream`, `std::getline`, and the `io_error` raised
  when a read fails other than at the end of input. The input is the
  sequence of lines that `getline` would deliver. `Errors.InputError` is the
  message, but nothing raises it.
- Floating-point fields. `from_chars` on floating-point types is numerics,
  so such fields are `CustomField`s converted by the caller-supplied
  function.
- The `operator>>` fallback conversion and user specialisations of
  `tsv::conversion`. They run user code, so they are the caller-supplied
  conversion.
- Compile-time reflection of the record's fields (`record_size`, the
  structured-binding `splat` overloads, `field_type_list`). These are
  replaced by the explicit schema.
- The rvalue-stream `load` overload. It only forwards to the lvalue one.
- `string_view` lifetimes, and `example/main.cc`, which is file I/O and
  printing.
- `getline` emptying its buffer when it fails at the end of input. The
  buffered line is unobservable then, because `available` is false.
- TsvParser.ParseRecord: "the caller's record is left untouched at the end
  of input" is modelled by returning no record. The model has no output
  parameter to leave alone.
- Exceptions other than `tsv::error` from caller-supplied conversions and
  the `validate()` hook. A `CustomConversion` and a `Validator` fail only
  with a `tsv::error`, so every conversion failure is stamped with the line.
  In C++ the catch at `include/tsv.hpp:615` takes only `tsv::error`. Any
  other exception, such as a `std::invalid_argument` from a `std::stoi` in
  a user's `tsv::conversion` specialisation, passes through
  `parse_record` and `load` unstamped.
- Text encodings. A Dafny `char` stands for one input byte, and nothing in
  the model ties a `char` to a byte value below 256. A caller that builds
  strings from Unicode text must first cut it into its bytes.
- The width of `std::size_t` line numbers. Line numbers are unbounded
  naturals, since no realistic input reaches 2^64 lines.

=== FILE: behaviours.dfy ===
/** Concrete inputs showing how the loader treats edge cases: trailing
    delimiters, signs on unsigned fields, lines starting with NUL, and line
    counting on lookahead. */
module Behaviours {
  import opened Wrappers
  import opened Decimal
  import opened Errors
  import opened Conversion
  import opened Split
  import opened Records
  import opened LineReader
  import opened TsvParser
  import opened Loader

  const U32: IntType := IntType(false, W32)
  const I32: IntType := IntType(true, W32)

  /** A delimiter at the very end of a line yields no trailing empty token:
      two tabs are two empty tokens, not three. */
  lemma TrailingDelimiterTokens()
    ensures Tokens("\t\t", '\t') == ["", ""]
    ensures Tokens("a\t", '\t') == ["a"]
  {
    TokensCons("\t\t", '\t');
    TokensCons("\t", '\t');
    assert Find("a\t", '\t') == Some(1);
    assert "a\t"[..1] == "a" && "a\t"[2..] == "";
    assert SplitConsume("a\t", '\t') == Success(("a", ""));
    TokensCons("a\t", '\t');
  }

  /** A delimiter at the very start of a line does yield a leading empty
      token. */
  lemma LeadingDelimiterTokens()
    ensures Tokens("\ta", '\t') == ["", "a"]
  {
    assert Find("a", '\t') == None;
    assert SplitConsume("a", '\t') == Success(("a", ""));
    TokensCons("a", '\t');
    assert "\ta"[..0] == "" && "\ta"[1..] == "a";
    assert SplitConsume("\ta", '\t') == Success(("", "a"));
    TokensCons("\ta", '\t');
  }

  /** Hence a line with a trailing delimiter still parses as a record with
      one field per token, for any conversion that accepts both tokens. */
  lemma TrailingDelimiterFields(conv: Converter, kind: FieldKind, v1: Value, v2: Value)
    requires conv(kind, "12") == Success(v1) && conv(kind, "34") == Success(v2)
    ensures ParseValues("12\t34\t", '\t', [kind, kind], conv) == Success([v1, v2])
  {
    LastFieldWithDelimiter(conv, kind, v2);
    FirstOfTwoFields();
    assert [kind, kind][1..] == [kind];
    assert [v1] + [v2] == [v1, v2];
  }

  /** The first field of a two-field line splits off at the first delimiter. */
  lemma FirstOfTwoFields()
    ensures SplitConsume("12\t34\t", '\t') == Success(("12", "34\t"))
  {
    assert Find("12\t34\t", '\t') == Some(2);
    assert "12\t34\t"[..2] == "12" && "12\t34\t"[3..] == "34\t";
  }

  /** The last field followed by the delimiter. */
  lemma LastFieldWithDelimiter(conv: Converter, kind: FieldKind, v: Value)
    requires conv(kind, "34") == Success(v)
    ensures ParseValues("34\t", '\t', [kind], conv) == Success([v])
  {
    assert Find("34\t", '\t') == Some(2);
    assert "34\t"[..2] == "34" && "34\t"[3..] == "";
    assert SplitConsume("34\t", '\t') == Success(("34", ""));
    assert [kind][1..] == [];
    assert ParseValues("", '\t', [], conv) == Success([]);
    assert [v] + [] == [v];
  }

  /** Small unsigned numbers convert to their values. */
  lemma SmallUnsigned(custom: CustomConversion)
    ensures Standard(custom)(IntField(U32), "12") == Success(IntValue(12))
    ensures Standard(custom)(IntField(U32), "34") == Success(IntValue(34))
  {
    ParseIntCharacterization("12", U32);
    ParseIntCharacterization("34", U32);
    assert "12"[..1] == "1" && "1"[..0] == "";
    assert "34"[..1] == "3" && "3"[..0] == "";
  }

  /** The record `12<TAB>34<TAB>` of two unsigned fields. */
  lemma TrailingDelimiterRecord(custom: CustomConversion)
    ensures ParseValues("12\t34\t", '\t', [IntField(U32), IntField(U32)], Standard(custom)) ==
      Success([IntValue(12), IntValue(34)])
  {
    SmallUnsigned(custom);
    TrailingDelimiterFields(Standard(custom), IntField(U32), IntValue(12), IntValue(34));
  }

  /** A minus sign is no part of an unsigned number, so a negative value in
      an unsigned field is a plain parse error, not an out-of-range one. */
  lemma NegativeIntoUnsigned()
    ensures ParseInt("-4", U32) == Failure(Raise(ParseError, ParseUnknown))
    ensures ParseInt("-4", I32) == Success(-4)
  {
    ParseIntCharacterization("-4", I32);
    assert "-4"[1..] == "4";
  }

  /** No digits after the (optional) sign is a plain parse error; a plus
      sign is not accepted. */
  lemma IntegerWithoutDigits()
    ensures ParseInt("", U32) == Failure(Raise(ParseError, ParseUnknown))
    ensures ParseInt("+1", I32) == Failure(Raise(ParseError, ParseUnknown))
  {
  }

  /** A number that does not fit the type is out of range. */
  lemma IntegerTooLarge()
    ensures ParseInt("256", IntType(false, W8)) == Failure(Raise(ParseError, OutOfRange))
  {
    var t := IntType(false, W8);
    WholeNumberPrefix("256", t);
    assert "256"[..2] == "25" && "25"[..1] == "2" && "2"[..0] == "";
    assert DecimalValue("2") == 2;
    assert DecimalValue("25") == 25;
    assert DecimalValue("256") == 256;
  }

  /** Text after the digits is leftover. */
  lemma IntegerWithLeftover()
    ensures ParseInt("1x", U32) == Failure(Raise(ParseError, Leftover))
  {
    assert NumberPrefix("1x", U32) == "1";
    assert TextValue("1", U32) == 1;
  }

  /** A `char` field takes one byte: the two bytes of the UTF-8 encoding
      of "é" are a parse error, one byte on its own converts. */
  lemma MultiByteCharRejected(custom: CustomConversion)
    ensures Convert(CharField, "\U{C3}\U{A9}", custom) == Failure(Raise(ParseError, ParseUnknown))
    ensures Convert(CharField, "\U{C3}", custom) == Success(CharValue('\U{C3}'))
  {
  }

  /** A message is shown as the C string `what()` returns: up to its first
      NUL byte. */
  lemma NulCutsMessage()
    ensures Check(false, "a\0b").Some?
    ensures Describe(Check(false, "a\0b").value) == "a"
  {
    assert CText("\0b") == [];
    assert CText("a\0b") == "a";
  }

  /** With comments disabled the prefix is the NUL character, so a line
      that starts with NUL is skipped like a comment. */
  lemma NulLineSkipped()
    ensures var q := SkipComment(NewParser(["\0x", "", "5"], '\t'), DefaultOptions.comment);
      Pending(q.source) == ["5"] && q.source.lineNumber == 3
    ensures NonComment(["\0x", "", "5"], DefaultOptions.comment, 0) == [2]
  {
    var nul := DefaultOptions.comment;
    var last := Parser(LineReader([], "5", 3, true), '\t');
    assert SkipComment(Parser(LineReader(["5"], "", 2, false), '\t'), nul) == last;
    assert SkipComment(Parser(LineReader(["", "5"], "\0x", 1, false), '\t'), nul) == last;
  }

  /** `parse_record` has consumed a line before it parses it, so after an
      error on line 1 the next call parses line 2. */
  lemma ParseRecordResumesAfterError(custom: CustomConversion)
    ensures
      var first := ParseRecord(NewParser(["x", "5"], '\t'), [IntField(U32)], Standard(custom));
      && first.0.Failure?
      && first.0.error.line == "x" && first.0.error.lineNumber == 1
      && ParseRecord(first.1, [IntField(U32)], Standard(custom)).0 == Success(Some([IntValue(5)]))
  {
    var p := NewParser(["x", "5"], '\t');
    NewReaderReads(["x", "5"]);
    ParseRecordMovesOn(p, ["x", "5"], [IntField(U32)], Standard(custom));
    ParseIntCharacterization("x", U32);
    ParseIntCharacterization("5", U32);
    assert "5"[..0] == "";
    assert Standard(custom)(IntField(U32), "5") == Success(IntValue(5));
    assert Find("5", '\t') == None;
    assert SplitConsume("5", '\t') == Success(("5", ""));
    assert [IntField(U32)][1..] == [];
    assert ParseValues("", '\t', [], Standard(custom)) == Success([]);
    assert [IntValue(5)] + [] == [IntValue(5)];
    assert ParseValues("5", '\t', [IntField(U32)], Standard(custom)) == Success([IntValue(5)]);
    var next := ParseRecord(p, [IntField(U32)], Standard(custom)).1;
    assert Pending(next.source) == ["5"];
  }

  /** Looking ahead reads, and counts, a line. */
  lemma PeekCountsLine()
    ensures Peek(NewReader(["a", "b"])).1.lineNumber == 1
    ensures Consume(Peek(NewReader(["a", "b"])).1).1.lineNumber == 1
  {
  }
}

=== FILE: conversion.dfy ===
/** The built-in `tsv::conversion` strategies: single characters, strings and
    integers read with `std::from_chars` in base 10. Every other field type
    (floating point, user types read with `operator>>`, user specialisations
    of `tsv::conversion`) goes through a caller-supplied conversion. */
module Conversion {
  import opened Wrappers
  import opened Decimal
  import opened Errors

  // ---------------------------------------------------------------------
  // Integer types

  /** The widths of the standard integer types. */
  datatype IntWidth = W8 | W16 | W32 | W64

  /** An integer field type: `signed char` ... `long long` and their unsigned
      counterparts. (Plain `char` is a separate field kind.) */
  datatype IntType = IntType(signed: bool, width: IntWidth)

  /** 2 to the power of the width. */
  function Modulus(w: IntWidth): nat {
    match w
    case W8 => 0x100
    case W16 => 0x1_0000
    case W32 => 0x1_0000_0000
    case W64 => 0x1_0000_0000_0000_0000
  }

  function MinValue(t: IntType): int {
    if t.signed then -(Modulus(t.width) / 2) else 0
  }

  function MaxValue(t: IntType): int {
    if t.signed then Modulus(t.width) / 2 - 1 else Modulus(t.width) - 1
  }

  predicate InRange(v: int, t: IntType) {
    MinValue(t) <= v <= MaxValue(t)
  }

  // ---------------------------------------------------------------------
  // The integer text pattern of std::from_chars (base 10)

  /** A whole string in the pattern: an optional minus sign, allowed only for
      signed types, then one or more decimal digits. No plus sign, no
      whitespace, no base prefix. */
  predicate IsIntegerText(s: string, t: IntType) {
    if |s| > 0 && s[0] == '-' then t.signed && |s| >= 2 && AllDigits(s[1..])
    else |s| >= 1 && AllDigits(s)
  }

  /** The mathematical value of a string in the pattern. */
  function TextValue(s: string, t: IntType): int
    requires IsIntegerText(s, t)
  {
    var magnitude: int := if s[0] == '-' then DecimalValue(s[1..]) else DecimalValue(s);
    if s[0] == '-' then -magnitude else magnitude
  }

  /** Length of the sign the pattern takes from the front of `s`. */
  function SignLength(s: string, t: IntType): (n: nat)
    ensures n <= |s| && (n == 1 <==> t.signed && |s| > 0 && s[0] == '-')
  {
    if t.signed && |s| > 0 && s[0] == '-' then 1 else 0
  }

  /** Number of consecutive digits of `s` starting at `i`. */
  function DigitRun(s: string, i: nat): (n: nat)
    requires i <= |s|
    ensures i + n <= |s|
    ensures forall k :: i <= k < i + n ==> IsDigit(s[k])
    ensures i + n == |s| || !IsDigit(s[i + n])
    decreases |s| - i
  {
    if i < |s| && IsDigit(s[i]) then 1 + DigitRun(s, i + 1) else 0
  }

  /** True when some prefix of `s` matches the pattern, i.e. a digit follows
      the (optional) sign. */
  predicate StartsWithNumber(s: string, t: IntType) {
    SignLength(s, t) < |s| && IsDigit(s[SignLength(s, t)])
  }

  /** The longest prefix of `s` in the pattern (when there is one). */
  function NumberPrefix(s: string, t: IntType): (p: string)
    requires StartsWithNumber(s, t)
    ensures |p| <= |s| && p == s[..|p|]
    ensures IsIntegerText(p, t)
    ensures |p| == |s| || !IsDigit(s[|p|])
  {
    var sign := SignLength(s, t);
    var p := s[..sign + DigitRun(s, sign)];
    assert sign == 1 ==> p[1..] == s[1..|p|];
    p
  }

  /** `std::errc` values `std::from_chars` reports. */
  datatype Errc = NoError | InvalidArgument | ResultOutOfRange

  /** What `std::from_chars` returns: the end of the matched pattern
      (`ptr`, an offset), the error code, and the value written (0 where
      none is written). */
  datatype FromCharsResult = FromCharsResult(ptr: nat, ec: Errc, value: int)

  /** `std::from_chars(first, last, value)` for an integer type in base 10:
      no match gives invalid_argument with ptr at the start; a match whose
      value does not fit gives result_out_of_range with ptr past the match;
      otherwise the value with ptr past the match. */
  function FromChars(s: string, t: IntType): (r: FromCharsResult)
    ensures r.ptr <= |s|
    ensures r.ec == InvalidArgument <==> !StartsWithNumber(s, t)
    ensures r.ec == InvalidArgument ==> r.ptr == 0
    ensures r.ec != InvalidArgument ==>
      r.ptr == |NumberPrefix(s, t)| &&
      (r.ec == NoError <==> InRange(TextValue(NumberPrefix(s, t), t), t))
    ensures r.ec == NoError ==> r.value == TextValue(NumberPrefix(s, t), t) && InRange(r.value, t)
  {
    if !StartsWithNumber(s, t) then
      FromCharsResult(0, InvalidArgument, 0)
    else
      var p := NumberPrefix(s, t);
      var v := TextValue(p, t);
      if InRange(v, t) then FromCharsResult(|p|, NoError, v)
      else FromCharsResult(|p|, ResultOutOfRange, 0)
  }

  /** `default_conversion<T>::parse` for an integer type T: an error code
      becomes out_of_range or the generic parse error, checked before any
      unconsumed text, which is a leftover error. */
  function ParseInt(s: string, t: IntType): (r: Result<int, Error>)
    ensures r.Failure? ==> r.error.kind == ParseError && r.error.line == [] && r.error.lineNumber == 0
    ensures r.Failure? && r.error.message == ParseUnknown <==> !StartsWithNumber(s, t)
    ensures r.Failure? && r.error.message == OutOfRange <==>
      StartsWithNumber(s, t) && !InRange(TextValue(NumberPrefix(s, t), t), t)
    ensures r.Failure? && r.error.message == Leftover <==>
      StartsWithNumber(s, t) && InRange(TextValue(NumberPrefix(s, t), t), t) && |NumberPrefix(s, t)| < |s|
  {
    var fc := FromChars(s, t);
    if fc.ec != NoError then
      Failure(Raise(ParseError, if fc.ec == ResultOutOfRange then OutOfRange else ParseUnknown))
    else if fc.ptr != |s| then
      Failure(Raise(ParseError, Leftover))
    else
      Success(fc.value)
  }

  /** A whole string in the pattern is its own longest matching prefix. */
  lemma WholeNumberPrefix(s: string, t: IntType)
    requires IsIntegerText(s, t)
    ensures StartsWithNumber(s, t) && NumberPrefix(s, t) == s
  {
    var sign := SignLength(s, t);
    assert sign == 1 <==> s[0] == '-';
    if sign == 1 {
      assert IsDigit(s[1..][0]);
    }
    forall k | sign <= k < |s|
      ensures IsDigit(s[k])
    {
      if sign == 1 {
        assert s[k] == s[1..][k - 1];
      }
    }
  }

  /** A text converts exactly when all of it is in the integer pattern and
      its value fits the type; the result is that value. */
  lemma ParseIntCharacterization(s: string, t: IntType)
    ensures ParseInt(s, t).Success? <==> IsIntegerText(s, t) && InRange(TextValue(s, t), t)
    ensures ParseInt(s, t).Success? ==> ParseInt(s, t).value == TextValue(s, t)
  {
    if IsIntegerText(s, t) {
      WholeNumberPrefix(s, t);
    }
    if ParseInt(s, t).Success? {
      assert NumberPrefix(s, t) == s;
    }
  }

  /** `std::to_string` of an integer: a minus sign for negatives, then the
      canonical digits of the magnitude. */
  function FormatInt(v: int): string {
    if v < 0 then "-" + NatToString(-v) else NatToString(v)
  }

  /** Every in-range value survives formatting and reading back. */
  lemma ParseFormatRoundTrip(v: int, t: IntType)
    requires InRange(v, t)
    ensures ParseInt(FormatInt(v), t) == Success(v)
  {
    var s := FormatInt(v);
    if v < 0 {
      assert s[1..] == NatToString(-v);
      assert t.signed;
    }
    assert IsIntegerText(s, t) && TextValue(s, t) == v;
    ParseIntCharacterization(s, t);
  }

  // ---------------------------------------------------------------------
  // Field kinds and the per-kind conversion

  /** The type of one record field. Text is C++ `char`s, i.e. bytes: each
      Dafny `char` stands for one byte, so `CharField` takes a one-byte
      token. */
  datatype FieldKind =
    | CharField
    | StringField
    | IntField(t: IntType)
    | CustomField(name: string)

  /** A converted field value. Custom conversions may return any of these;
      `Opaque` stands for values of types the built-ins do not cover. */
  datatype Value =
    | CharValue(c: char)
    | StringValue(s: string)
    | IntValue(i: int)
    | Opaque(name: string, data: seq<int>)

  /** A conversion for custom field kinds, given the kind's name and the
      token; it may fail with any `tsv::error`. A C++ conversion that throws
      some other exception is outside this type (see README, Left out). */
  type CustomConversion = (string, string) -> Result<Value, Error>

  /** True when `v` is a value the built-in strategy for `kind` can produce. */
  predicate HasKind(v: Value, kind: FieldKind) {
    match kind
    case CharField => v.CharValue?
    case StringField => v.StringValue?
    case IntField(t) => v.IntValue? && InRange(v.i, t)
    case CustomField(_) => true
  }

  /** `tsv::conversion<T>::parse(text)` for the field's type. */
  function Convert(kind: FieldKind, text: string, custom: CustomConversion): (r: Result<Value, Error>)
    ensures r.Success? ==> HasKind(r.value, kind)
    ensures kind.CharField? ==>
      (r.Success? <==> |text| == 1) &&
      (r.Success? ==> r.value == CharValue(text[0])) &&
      (r.Failure? ==> r.error == Raise(ParseError, ParseUnknown))
    ensures kind.StringField? ==> r == Success(StringValue(text))
    ensures kind.IntField? ==>
      (r.Success? <==> IsIntegerText(text, kind.t) && InRange(TextValue(text, kind.t), kind.t)) &&
      (r.Success? ==> r.value == IntValue(TextValue(text, kind.t))) &&
      (r.Failure? ==> ParseInt(text, kind.t) == Failure(r.error))
    ensures kind.CustomField? ==> r == custom(kind.name, text)
  {
    match kind
    case CharField =>
      if |text| != 1 then Failure(Raise(ParseError, ParseUnknown)) else Success(CharValue(text[0]))
    case StringField =>
      Success(StringValue(text))
    case IntField(t) =>
      ParseIntCharacterization(text, t);
      (match ParseInt(text, t)
       case Success(i) => Success(IntValue(i))
       case Failure(e) => Failure(e))
    case CustomField(name) =>
      custom(name, text)
  }

  /** The conversion a record field goes through, chosen by the field's
      type: `detail::parse` overloads plus the stream-extraction fallback. */
  type Converter = (FieldKind, string) -> Result<Value, Error>

  /** The conversions `tsv.hpp` provides, with `custom` for other types. */
  function Standard(custom: CustomConversion): (conv: Converter)
    ensures forall kind, text :: conv(kind, text) == Convert(kind, text, custom)
  {
    (kind: FieldKind, text: string) => Convert(kind, text, custom)
  }
}

=== FILE: decimal.dfy ===
/** Decimal digit strings: the digits `std::from_chars` accepts in base 10 and
    the text `std::to_string` produces for a line number. */
module Decimal {

  predicate IsDigit(c: char) {
    '0' <= c <= '9'
  }

  function DigitValue(c: char): (d: nat)
    requires IsDigit(c)
    ensures d < 10
  {
    c as int - '0' as int
  }

  function DigitChar(d: nat): (c: char)
    requires d < 10
    ensures IsDigit(c) && DigitValue(c) == d
  {
    ('0' as int + d) as char
  }

  predicate AllDigits(s: string) {
    forall i :: 0 <= i < |s| ==> IsDigit(s[i])
  }

  /** The value of a digit string read most-significant digit first
      (the empty string reads as 0). */
  function DecimalValue(s: string): nat
    requires AllDigits(s)
    decreases |s|
  {
    if s == [] then 0 else DecimalValue(s[..|s| - 1]) * 10 + DigitValue(s[|s| - 1])
  }

  /** Appending one digit shifts the value one decimal place. */
  lemma DecimalValueSnoc(s: string, c: char)
    requires AllDigits(s) && IsDigit(c)
    ensures AllDigits(s + [c])
    ensures DecimalValue(s + [c]) == DecimalValue(s) * 10 + DigitValue(c)
  {
    assert (s + [c])[..|s|] == s;
  }

  /** Canonical decimal rendering of a natural number, as `std::to_string`
      writes an unsigned value: at least one digit, no leading zero. */
  function NatToString(n: nat): (s: string)
    ensures |s| >= 1 && AllDigits(s)
    ensures s[0] != '0' || s == "0"
    ensures DecimalValue(s) == n
    decreases n
  {
    if n < 10 then
      [DigitChar(n)]
    else
      var prefix := NatToString(n / 10);
      DecimalValueSnoc(prefix, DigitChar(n % 10));
      prefix + [DigitChar(n % 10)]
  }
}

=== FILE: errors.dfy ===
/** The `tsv::error` hierarchy, flattened into one record with a kind tag, and
    its `describe()` rendering and the `check()` helper for validation hooks. */
module Errors {
  import opened Wrappers
  import opened Decimal

  /** The four subclasses of `tsv::error`. */
  datatype ErrorKind = FormatError | ParseError | IoError | ValidationError

  /** `message` is the string the error was constructed with (`what()`
      shows it only up to its first NUL byte, see CText); `line` is empty
      and `lineNumber` is 0 until the parser annotates the error. */
  datatype Error = Error(kind: ErrorKind, message: string, line: string, lineNumber: nat)

  // Messages of format_error.
  const MissingHeader: string := "header is expected but not seen"
  const MissingField: string := "insufficient number of fields"
  const ExcessField: string := "excess fields"

  // Messages of parse_error.
  const ParseUnknown: string := "parse error"
  const OutOfRange: string := "value out of range"
  const Leftover: string := "excess character(s) at the end of a field"

  // Message of io_error (raised only by the stream plumbing, which is not modelled).
  const InputError: string := "input error"

  /** An error as it is first thrown: a message and no position. */
  function Raise(kind: ErrorKind, message: string): Error {
    Error(kind, message, "", 0)
  }

  /** The parser's catch-and-rethrow: the kind and message survive, the
      position is overwritten. */
  function Stamp(e: Error, line: string, lineNumber: nat): (s: Error)
    ensures s.kind == e.kind && s.message == e.message
    ensures s.line == line && s.lineNumber == lineNumber
  {
    e.(line := line, lineNumber := lineNumber)
  }

  /** What `what()` returns for a message: a C string, so the message up to
      (not including) its first NUL byte. */
  function CText(s: string): (c: string)
    ensures |c| <= |s| && c == s[..|c|]
    ensures '\0' !in c
    ensures |c| < |s| ==> s[|c|] == '\0'
    decreases |s|
  {
    if s == [] || s[0] == '\0' then []
    else
      var tail := CText(s[1..]);
      assert [s[0]] + tail == s[..|tail| + 1];
      [s[0]] + tail
  }

  /** A message without a NUL byte is shown whole. */
  lemma {:induction false} CTextWithoutNul(s: string)
    requires '\0' !in s
    ensures CText(s) == s
  {
    var c := CText(s);
    if |c| < |s| {
      assert false;
    }
  }

  /** The " (at line N)" part of a description, empty for line number 0. */
  function AtLine(n: nat): string {
    if n == 0 then "" else " (at line " + NatToString(n) + ")"
  }

  /** The `: "line"` part of a description, empty for an empty line. */
  function QuotedLine(line: string): string {
    if line == [] then "" else ": \"" + line + "\""
  }

  /** `error::describe()`: the `what()` text, then the line number when it
      is not 0, then the quoted line when it is not empty. */
  function Describe(e: Error): (d: string)
    ensures e.lineNumber == 0 && e.line == [] ==> d == CText(e.message)
    ensures e.lineNumber == 0 && e.line != [] ==> d == CText(e.message) + ": \"" + e.line + "\""
    ensures e.lineNumber != 0 && e.line == [] ==>
      d == CText(e.message) + " (at line " + NatToString(e.lineNumber) + ")"
    ensures e.lineNumber != 0 && e.line != [] ==>
      d == CText(e.message) + " (at line " + NatToString(e.lineNumber) + ")" + ": \"" + e.line + "\""
  {
    CText(e.message) + AtLine(e.lineNumber) + QuotedLine(e.line)
  }

  /** A message without a NUL byte heads its description whole. */
  lemma DescribeShowsWholeMessage(e: Error)
    requires '\0' !in e.message
    ensures |Describe(e)| >= |e.message| && Describe(e)[..|e.message|] == e.message
  {
    CTextWithoutNul(e.message);
  }

  /** The rendering keeps line numbers apart: two errors with the same
      message and line describe alike only when their line numbers agree. */
  lemma DescribeDistinguishesLineNumbers(e1: Error, e2: Error)
    requires e1.message == e2.message && e1.line == e2.line
    requires Describe(e1) == Describe(e2)
    ensures e1.lineNumber == e2.lineNumber
  {
    var m, q := CText(e1.message), QuotedLine(e1.line);
    var a1, a2 := AtLine(e1.lineNumber), AtLine(e2.lineNumber);
    assert Describe(e1) == m + a1 + q && Describe(e2) == m + a2 + q;
    assert |a1| == |a2|;
    assert a1 == (m + a1 + q)[|m|..|m| + |a1|];
    assert a2 == (m + a2 + q)[|m|..|m| + |a2|];
    if e1.lineNumber != 0 && e2.lineNumber != 0 {
      var s1, s2 := NatToString(e1.lineNumber), NatToString(e2.lineNumber);
      assert a1 == " (at line " + s1 + ")";
      assert a2 == " (at line " + s2 + ")";
      assert s1 == a1[10..|a1| - 1];
      assert s2 == a2[10..|a2| - 1];
    }
  }

  /** `tsv::check()`: fails, with an unpositioned validation error carrying
      the message, exactly when the predicate is false. */
  function Check(pred: bool, message: string): (r: Option<Error>)
    ensures r.None? <==> pred
    ensures r.Some? ==> r.value.kind == ValidationError && r.value.message == message
    ensures r.Some? ==> r.value.line == [] && r.value.lineNumber == 0
  {
    if pred then None else Some(Raise(ValidationError, message))
  }
}

=== FILE: line_reader.dfy ===
/** `detail::line_reader`: lines of an input with one line of lookahead.
    The input arrives already cut into lines (what successive `getline`
    calls would yield), so `stream` is the part of the input not yet read. */
module LineReader {
  import opened Wrappers

  /** `line` is the buffer, meaningful while `available` holds; `lineNumber`
      counts the lines taken from the stream so far. */
  datatype LineReader = LineReader(stream: seq<string>, line: string, lineNumber: nat, available: bool)

  /** A reader over the start of an input: nothing read, nothing buffered. */
  function NewReader(input: seq<string>): LineReader {
    LineReader(input, "", 0, false)
  }

  /** The lines `consume` will still return, in order: the buffered one (if
      any) followed by the unread stream. */
  function Pending(r: LineReader): seq<string> {
    (if r.available then [r.line] else []) + r.stream
  }

  /** 1 when the next `peek` or `consume` has to take a line from the stream
      (none buffered and one is there), 0 otherwise. */
  function Fetches(r: LineReader): nat {
    if !r.available && r.stream != [] then 1 else 0
  }

  /** `ensure_line()`: keeps a buffered line, otherwise reads the next one and
      counts it; at the end of the input it reports false. */
  function EnsureLine(r: LineReader): (res: (bool, LineReader))
    ensures Pending(res.1) == Pending(r)
    ensures res.0 <==> Pending(r) != []
    ensures res.0 ==> res.1.available && res.1.line == Pending(r)[0]
    ensures res.1.lineNumber == r.lineNumber + Fetches(r)
    ensures res.1.lineNumber + |res.1.stream| == r.lineNumber + |r.stream|
  {
    if r.available then (true, r)
    else if r.stream == [] then (false, r)
    else (true, LineReader(r.stream[1..], r.stream[0], r.lineNumber + 1, true))
  }

  /** `consume()`: the next line, which is no longer pending afterwards, or
      nothing at the end of the input (the reader is then left as it was). */
  function Consume(r: LineReader): (res: (Option<string>, LineReader))
    ensures res.0.None? <==> Pending(r) == []
    ensures res.0.None? ==> res.1 == r
    ensures res.0.Some? ==> res.0.value == Pending(r)[0] && Pending(res.1) == Pending(r)[1..]
    ensures !res.1.available
    ensures res.1.lineNumber == r.lineNumber + Fetches(r)
    ensures res.1.lineNumber + |res.1.stream| == r.lineNumber + |r.stream|
  {
    var (ok, r1) := EnsureLine(r);
    if !ok then (None, r1)
    else (Some(r1.line), r1.(available := false))
  }

  /** `peek()`: the next line without consuming it, or nothing at the end of
      the input. Looking ahead may read (and count) a line. */
  function Peek(r: LineReader): (res: (Option<string>, LineReader))
    ensures res.0.None? <==> Pending(r) == []
    ensures res.0.None? ==> res.1 == r
    ensures res.0.Some? ==> res.0.value == Pending(r)[0] && res.1.available
    ensures Pending(res.1) == Pending(r)
    ensures res.1.lineNumber == r.lineNumber + Fetches(r)
    ensures res.1.lineNumber + |res.1.stream| == r.lineNumber + |r.stream|
  {
    var (ok, r1) := EnsureLine(r);
    if !ok then (None, r1) else (Some(r1.line), r1)
  }

  /** Peeking twice is peeking once: the second look returns the same line
      and neither reads nor counts another one. */
  lemma PeekIdempotent(r: LineReader)
    ensures Peek(Peek(r).1) == Peek(r)
  {
  }

  /** A consume after a peek returns the peeked line. */
  lemma ConsumeAfterPeek(r: LineReader)
    ensures Consume(Peek(r).1).0 == Peek(r).0
    ensures Consume(Peek(r).1).1.lineNumber == Consume(r).1.lineNumber
  {
  }

  /** `r` is a reader over `input` in a state the operations can reach: the
      stream is the input after the first `lineNumber` lines, and a buffered
      line is the last of those. */
  predicate Reads(r: LineReader, input: seq<string>) {
    && r.lineNumber <= |input|
    && r.stream == input[r.lineNumber..]
    && (r.available ==> r.lineNumber >= 1 && r.line == input[r.lineNumber - 1])
  }

  /** How many lines of the input have been consumed. */
  function Consumed(r: LineReader): int {
    r.lineNumber - (if r.available then 1 else 0)
  }

  /** A reachable reader's pending lines are the input after the consumed ones. */
  lemma ReadsPending(r: LineReader, input: seq<string>)
    requires Reads(r, input)
    ensures 0 <= Consumed(r) <= |input|
    ensures Pending(r) == input[Consumed(r)..]
  {
    if r.available {
      assert input[r.lineNumber - 1..] == [input[r.lineNumber - 1]] + input[r.lineNumber..];
    }
  }

  /** A fresh reader is reachable, at line 0 with nothing consumed. */
  lemma NewReaderReads(input: seq<string>)
    ensures Reads(NewReader(input), input) && NewReader(input).lineNumber == 0 && Consumed(NewReader(input)) == 0
  {
  }

  /** `peek` keeps a reader reachable. */
  lemma PeekReads(r: LineReader, input: seq<string>)
    requires Reads(r, input)
    ensures Reads(Peek(r).1, input) && Consumed(Peek(r).1) == Consumed(r)
  {
    if !r.available && r.stream != [] {
      assert r.stream[1..] == input[r.lineNumber + 1..];
    }
  }

  /** `consume` keeps a reader reachable. After a consume that returns a
      line, the line number is that line's 1-based position. */
  lemma ConsumeReads(r: LineReader, input: seq<string>)
    requires Reads(r, input)
    ensures Reads(Consume(r).1, input)
    ensures Consume(r).0.Some? ==>
      var r' := Consume(r).1;
      1 <= r'.lineNumber <= |input| && Consume(r).0.value == input[r'.lineNumber - 1] &&
      Consumed(r') == Consumed(r) + 1
  {
    if !r.available && r.stream != [] {
      assert r.stream[1..] == input[r.lineNumber + 1..];
    }
  }
}

=== FILE: loader.dfy ===
/** `tsv::load`: skip comments, consume the optional header, then parse and
    validate one record per remaining non-comment line. */
module Loader {
  import opened Wrappers
  import opened Errors
  import opened Conversion
  import opened Split
  import opened Records
  import opened LineReader
  import opened TsvParser

  /** `tsv::options`. */
  datatype Options = Options(delimiter: char, header: bool, comment: char)

  /** The defaults: tab-delimited, with a header line, comments disabled. */
  const DefaultOptions: Options := Options('\t', true, 0 as char)

  /** A record's `validate()` hook: `Some(e)` is the error it throws. A record
      type without the hook behaves as `NoValidation`. */
  type Validator = Record -> Option<Error>

  const NoValidation: Validator := (r: Record) => None

  /** The outcome of validating a parsed record. */
  function ValidateResult(validate: Validator, record: Record): Result<Record, Error> {
    match validate(record)
    case Some(e) => Failure(e)
    case None => Success(record)
  }

  /** One record's outcome followed by the outcome of the records after it;
      the first failure wins. */
  function Prepend(first: Result<Record, Error>, rest: Result<seq<Record>, Error>): Result<seq<Record>, Error> {
    match first
    case Failure(e) => Failure(e)
    case Success(record) =>
      match rest
      case Failure(e) => Failure(e)
      case Success(records) => Success([record] + records)
  }

  /** The record loop of `load`: skip comments, then take a loop turn on
      the line reached. Each record comes from a line of its own. */
  function LoadRecords(p: Parser, prefix: char, schema: Schema, conv: Converter, validate: Validator): (r: Result<seq<Record>, Error>)
    ensures r.Success? ==> |r.value| <= |Pending(p.source)|
    decreases |Pending(p.source)|, 1
  {
    LoadTurn(SkipComment(p, prefix), prefix, schema, conv, validate)
  }

  /** One turn of the record loop: parse a record, stop at the end of the
      input, otherwise validate it and continue. The first error aborts the
      loop; a validation error propagates as the hook raised it. Each
      record comes from a line of its own. */
  function LoadTurn(p: Parser, prefix: char, schema: Schema, conv: Converter, validate: Validator): (r: Result<seq<Record>, Error>)
    ensures r.Success? ==> |r.value| <= |Pending(p.source)|
    decreases |Pending(p.source)|, 0
  {
    match ParseRecord(p, schema, conv)
    case (Failure(e), _) => Failure(e)
    case (Success(None), _) => Success([])
    case (Success(Some(record)), p2) =>
      Prepend(ValidateResult(validate, record), LoadRecords(p2, prefix, schema, conv, validate))
  }

  /** `tsv::load<Record>(input, opts)`. It yields at most one record per
      input line, and none for the header line; LoadMatchesReference states
      its outcome exactly. */
  function Load(input: seq<string>, opts: Options, schema: Schema, conv: Converter, validate: Validator): (r: Result<seq<Record>, Error>)
    ensures r.Success? ==> |r.value| <= |input|
    ensures r.Success? && opts.header ==> |r.value| < |input|
  {
    var p := SkipComment(NewParser(input, opts.delimiter), opts.comment);
    if opts.header then
      var (ok, _, p') := ParseFields(p, []);
      if !ok then Failure(Raise(FormatError, MissingHeader))
      else LoadRecords(p', opts.comment, schema, conv, validate)
    else
      LoadRecords(p, opts.comment, schema, conv, validate)
  }

  // ---------------------------------------------------------------------
  // Reference definition over line positions

  /** Positions, from `from` on, of the lines that are not comments, in
      increasing order. */
  function NonComment(input: seq<string>, prefix: char, from: nat): (idx: seq<nat>)
    ensures forall k :: 0 <= k < |idx| ==> from <= idx[k] < |input|
    decreases |input| - from
  {
    if from >= |input| then []
    else if IsComment(input[from], prefix) then NonComment(input, prefix, from + 1)
    else [from] + NonComment(input, prefix, from + 1)
  }

  /** Every listed position is a non-comment line. */
  lemma {:induction false} NonCommentSound(input: seq<string>, prefix: char, from: nat)
    ensures forall k :: 0 <= k < |NonComment(input, prefix, from)| ==>
      !IsComment(input[NonComment(input, prefix, from)[k]], prefix)
    decreases |input| - from
  {
    if from < |input| {
      NonCommentSound(input, prefix, from + 1);
    }
  }

  /** The positions are listed in increasing order. */
  lemma {:induction false} NonCommentIncreasing(input: seq<string>, prefix: char, from: nat)
    ensures forall k, l :: 0 <= k < l < |NonComment(input, prefix, from)| ==>
      NonComment(input, prefix, from)[k] < NonComment(input, prefix, from)[l]
    decreases |input| - from
  {
    if from < |input| {
      NonCommentIncreasing(input, prefix, from + 1);
    }
  }

  /** Every non-comment line from `from` on is listed. */
  lemma {:induction false} NonCommentComplete(input: seq<string>, prefix: char, from: nat)
    ensures forall j :: from <= j < |input| && !IsComment(input[j], prefix) ==>
      j in NonComment(input, prefix, from)
    decreases |input| - from
  {
    if from < |input| {
      NonCommentComplete(input, prefix, from + 1);
    }
  }

  /** What one data line contributes: its record, its parse error annotated
      with the line and its 1-based position, or its validation error. */
  function ProcessLine(line: string, lineNumber: nat, delim: char, schema: Schema, conv: Converter, validate: Validator): Result<Record, Error>
  {
    match ParseValues(line, delim, schema, conv)
    case Failure(e) => Failure(Stamp(e, line, lineNumber))
    case Success(record) => ValidateResult(validate, record)
  }

  /** The outcomes of the lines at the given positions, in order. */
  function Outcomes(input: seq<string>, data: seq<nat>, delim: char, schema: Schema, conv: Converter, validate: Validator): (r: seq<Result<Record, Error>>)
    requires forall k :: 0 <= k < |data| ==> data[k] < |input|
    ensures |r| == |data|
  {
    seq(|data|, k requires 0 <= k < |data| => ProcessLine(input[data[k]], data[k] + 1, delim, schema, conv, validate))
  }

  /** Gathers outcomes in order; the first failure wins. */
  function Collect(outcomes: seq<Result<Record, Error>>): Result<seq<Record>, Error>
    decreases |outcomes|
  {
    if outcomes == [] then Success([])
    else Prepend(outcomes[0], Collect(outcomes[1..]))
  }

  /** Gathering succeeds exactly when every outcome does, and then yields
      the records in order. */
  lemma {:induction false} CollectSpec(outcomes: seq<Result<Record, Error>>)
    ensures Collect(outcomes).Success? <==> forall k :: 0 <= k < |outcomes| ==> outcomes[k].Success?
    ensures Collect(outcomes).Success? ==>
      |Collect(outcomes).value| == |outcomes| &&
      forall k :: 0 <= k < |outcomes| ==> outcomes[k] == Success(Collect(outcomes).value[k])
    decreases |outcomes|
  {
    if outcomes != [] {
      CollectSpec(outcomes[1..]);
      assert forall k :: 1 <= k < |outcomes| ==> outcomes[k] == outcomes[1..][k - 1];
    }
  }

  /** The first failing outcome decides the error. */
  lemma {:induction false} CollectFirstFailure(outcomes: seq<Result<Record, Error>>, k: nat)
    requires k < |outcomes| && outcomes[k].Failure?
    requires forall j :: 0 <= j < k ==> outcomes[j].Success?
    ensures Collect(outcomes) == Failure(outcomes[k].error)
    decreases k
  {
    if k > 0 {
      assert outcomes[0].Success?;
      assert forall j :: 0 <= j < k - 1 ==> outcomes[1..][j] == outcomes[j + 1];
      CollectFirstFailure(outcomes[1..], k - 1);
    }
  }

  /** Processes the data lines at the given positions in order and stops at
      the first failure. */
  function ProcessAll(input: seq<string>, data: seq<nat>, delim: char, schema: Schema, conv: Converter, validate: Validator): Result<seq<Record>, Error>
    requires forall k :: 0 <= k < |data| ==> data[k] < |input|
  {
    Collect(Outcomes(input, data, delim, schema, conv, validate))
  }

  /** Processing succeeds exactly when every data line does, and then yields
      each line's record at that line's place. */
  lemma ProcessAllSpec(input: seq<string>, data: seq<nat>, delim: char, schema: Schema, conv: Converter, validate: Validator)
    requires forall k :: 0 <= k < |data| ==> data[k] < |input|
    ensures var r := ProcessAll(input, data, delim, schema, conv, validate);
      && (r.Success? <==>
            forall k :: 0 <= k < |data| ==> ProcessLine(input[data[k]], data[k] + 1, delim, schema, conv, validate).Success?)
      && (r.Success? ==> |r.value| == |data|)
      && (r.Success? ==>
            forall k :: 0 <= k < |data| ==> ProcessLine(input[data[k]], data[k] + 1, delim, schema, conv, validate) == Success(r.value[k]))
  {
    var outcomes := Outcomes(input, data, delim, schema, conv, validate);
    CollectSpec(outcomes);
    assert forall k :: 0 <= k < |data| ==> outcomes[k] == ProcessLine(input[data[k]], data[k] + 1, delim, schema, conv, validate);
  }

  /** Positions of the data lines: every non-comment line but the first
      when a header is expected; nothing when a header is expected and there
      is no non-comment line to serve as one. */
  function DataLines(input: seq<string>, opts: Options): (data: Option<seq<nat>>)
    ensures data.Some? ==> forall k :: 0 <= k < |data.value| ==> data.value[k] < |input|
  {
    var lines := NonComment(input, opts.comment, 0);
    if !opts.header then Some(lines)
    else if lines == [] then None
    else Some(lines[1..])
  }

  /** `load` specified without a reader: a missing header, or every data
      line processed in order. */
  function LoadReference(input: seq<string>, opts: Options, schema: Schema, conv: Converter, validate: Validator): Result<seq<Record>, Error>
  {
    match DataLines(input, opts)
    case None => Failure(Raise(FormatError, MissingHeader))
    case Some(data) => ProcessAll(input, data, opts.delimiter, schema, conv, validate)
  }

  /** A non-comment line heads the positions from it on. */
  lemma NonCommentHead(input: seq<string>, prefix: char, d: nat)
    requires d < |input| && !IsComment(input[d], prefix)
    ensures NonComment(input, prefix, d) == [d] + NonComment(input, prefix, d + 1)
  {
  }

  /** Processing a line followed by more lines. */
  lemma ProcessAllCons(input: seq<string>, d: nat, rest: seq<nat>, delim: char, schema: Schema, conv: Converter, validate: Validator)
    requires d < |input| && forall k :: 0 <= k < |rest| ==> rest[k] < |input|
    ensures ProcessAll(input, [d] + rest, delim, schema, conv, validate) ==
      Prepend(ProcessLine(input[d], d + 1, delim, schema, conv, validate), ProcessAll(input, rest, delim, schema, conv, validate))
  {
    var all := Outcomes(input, [d] + rest, delim, schema, conv, validate);
    assert all[1..] == Outcomes(input, rest, delim, schema, conv, validate);
  }

  /** The first data line that fails decides the error. */
  lemma ProcessAllFirstFailure(input: seq<string>, data: seq<nat>, delim: char, schema: Schema, conv: Converter, validate: Validator, k: nat)
    requires forall j :: 0 <= j < |data| ==> data[j] < |input|
    requires k < |data| && ProcessLine(input[data[k]], data[k] + 1, delim, schema, conv, validate).Failure?
    requires forall j :: 0 <= j < k ==> ProcessLine(input[data[j]], data[j] + 1, delim, schema, conv, validate).Success?
    ensures ProcessAll(input, data, delim, schema, conv, validate) ==
      Failure(ProcessLine(input[data[k]], data[k] + 1, delim, schema, conv, validate).error)
  {
    CollectFirstFailure(Outcomes(input, data, delim, schema, conv, validate), k);
  }

  // ---------------------------------------------------------------------
  // The loader meets the reference

  /** Skipping over comment lines does not change which lines are not comments. */
  lemma {:induction false} NonCommentSkip(input: seq<string>, prefix: char, from: nat, until: nat)
    requires from <= until <= |input|
    requires forall j :: from <= j < until ==> IsComment(input[j], prefix)
    ensures NonComment(input, prefix, from) == NonComment(input, prefix, until)
    decreases until - from
  {
    if from < until {
      NonCommentSkip(input, prefix, from + 1, until);
    }
  }

  /** After `skip_comment` on a reachable reader, the reader is still
      reachable, the non-comment positions ahead are unchanged, and the next
      pending line (if any) is the first of them. */
  lemma SkipCommentPositions(p: Parser, prefix: char, input: seq<string>)
    requires Reads(p.source, input)
    ensures var q := SkipComment(p, prefix);
      && Reads(q.source, input)
      && NonComment(input, prefix, Consumed(p.source)) == NonComment(input, prefix, Consumed(q.source))
      && (Consumed(q.source) < |input| ==> !IsComment(input[Consumed(q.source)], prefix) && q.source.available)
  {
    var q := SkipComment(p, prefix);
    SkipCommentReads(p, prefix, input);
    SkipCommentSpec(p, prefix);
    ReadsPending(p.source, input);
    ReadsPending(q.source, input);
    var c, d := Consumed(p.source), Consumed(q.source);
    var before, after := Pending(p.source), Pending(q.source);
    assert d == c + (|before| - |after|);
    SkippedLines(input, prefix, c, before, after);
    NonCommentSkip(input, prefix, c, d);
  }

  /** The lines skipped off the front of the input after position `c` sit
      at positions `c` onwards. */
  lemma SkippedLines(input: seq<string>, prefix: char, c: nat, before: seq<string>, after: seq<string>)
    requires c <= |input| && before == input[c..] && |after| <= |before|
    requires after == before[|before| - |after|..]
    requires forall i :: 0 <= i < |before| - |after| ==> IsComment(before[i], prefix)
    ensures forall j :: c <= j < c + (|before| - |after|) ==> IsComment(input[j], prefix)
    ensures after != [] ==> after[0] == input[c + (|before| - |after|)]
  {
    forall j | c <= j < c + (|before| - |after|)
      ensures IsComment(input[j], prefix)
    {
      assert input[j] == before[j - c];
    }
  }

  /** The line a reader is positioned on, processed on its own, fails
      exactly as `parse_record` does, and otherwise validates the same record. */
  lemma LineMatchesParseRecord(p1: Parser, input: seq<string>, schema: Schema, conv: Converter, validate: Validator)
    requires Reads(p1.source, input)
    requires Consumed(p1.source) < |input| && p1.source.available
    ensures
      var d := Consumed(p1.source);
      var first := ProcessLine(input[d], d + 1, p1.delim, schema, conv, validate);
      var turn := ParseRecord(p1, schema, conv);
      && (turn.0.Failure? ==> first == Failure(turn.0.error))
      && (turn.0.Success? ==>
            && turn.0.value.Some?
            && first == ValidateResult(validate, turn.0.value.value)
            && Reads(turn.1.source, input)
            && Consumed(turn.1.source) == d + 1
            && turn.1.delim == p1.delim)
  {
    ReadsPending(p1.source, input);
    ConsumeReads(p1.source, input);
  }

  /** The record loop, started on a reachable reader, processes exactly the
      non-comment lines that have not been consumed yet. */
  lemma {:induction false} LoadRecordsMatches(p: Parser, input: seq<string>, prefix: char, schema: Schema, conv: Converter, validate: Validator)
    requires Reads(p.source, input)
    ensures LoadRecords(p, prefix, schema, conv, validate) ==
      ProcessAll(input, NonComment(input, prefix, Consumed(p.source)), p.delim, schema, conv, validate)
    decreases |Pending(p.source)|, 1
  {
    SkipCommentPositions(p, prefix, input);
    LoadTurnMatches(SkipComment(p, prefix), input, prefix, schema, conv, validate);
  }

  /** A loop turn taken where comment skipping stops processes the
      non-comment lines from there on. */
  lemma {:induction false} LoadTurnMatches(p: Parser, input: seq<string>, prefix: char, schema: Schema, conv: Converter, validate: Validator)
    requires Reads(p.source, input)
    requires Consumed(p.source) < |input| ==> !IsComment(input[Consumed(p.source)], prefix) && p.source.available
    ensures LoadTurn(p, prefix, schema, conv, validate) ==
      ProcessAll(input, NonComment(input, prefix, Consumed(p.source)), p.delim, schema, conv, validate)
    decreases |Pending(p.source)|, 0
  {
    ReadsPending(p.source, input);
    var d := Consumed(p.source);
    if d < |input| {
      var rest := NonComment(input, prefix, d + 1);
      NonCommentHead(input, prefix, d);
      ProcessAllCons(input, d, rest, p.delim, schema, conv, validate);
      LineMatchesParseRecord(p, input, schema, conv, validate);
      var turn := ParseRecord(p, schema, conv);
      if turn.0.Success? {
        var p2 := turn.1;
        ReadsPending(p2.source, input);
        LoadRecordsMatches(p2, input, prefix, schema, conv, validate);
      }
    }
  }

  /** Where comment skipping stops, the header is the first non-comment
      line: `parse_fields` finds one exactly when such a line is left, and
      consuming it leaves the non-comment lines after it. */
  lemma HeaderLine(q: Parser, input: seq<string>, prefix: char)
    requires Reads(q.source, input)
    requires Consumed(q.source) < |input| ==> !IsComment(input[Consumed(q.source)], prefix) && q.source.available
    ensures var lines, r := NonComment(input, prefix, Consumed(q.source)), ParseFields(q, []);
      && (r.0 <==> lines != [])
      && (r.0 ==>
            && Reads(r.2.source, input)
            && r.2.delim == q.delim
            && NonComment(input, prefix, Consumed(r.2.source)) == lines[1..])
  {
    ReadsPending(q.source, input);
    var c := Consumed(q.source);
    if c < |input| {
      NonCommentHead(input, prefix, c);
      ConsumeReads(q.source, input);
    }
  }

  /** `load` computes the reference. */
  lemma LoadMatchesReference(input: seq<string>, opts: Options, schema: Schema, conv: Converter, validate: Validator)
    ensures Load(input, opts, schema, conv, validate) == LoadReference(input, opts, schema, conv, validate)
  {
    var p0 := NewParser(input, opts.delimiter);
    NewReaderReads(input);
    var q := SkipComment(p0, opts.comment);
    SkipCommentPositions(p0, opts.comment, input);
    if opts.header {
      HeaderLine(q, input, opts.comment);
      var p' := ParseFields(q, []).2;
      if ParseFields(q, []).0 {
        LoadRecordsMatches(p', input, opts.comment, schema, conv, validate);
      }
    } else {
      LoadRecordsMatches(q, input, opts.comment, schema, conv, validate);
    }
  }

  // ---------------------------------------------------------------------
  // What `load` promises

  /** With a header expected and no non-comment line to serve as one, `load`
      fails with the missing-header error, unpositioned. */
  lemma LoadMissingHeader(input: seq<string>, opts: Options, schema: Schema, conv: Converter, validate: Validator)
    requires opts.header && NonComment(input, opts.comment, 0) == []
    ensures Load(input, opts, schema, conv, validate) == Failure(Error(FormatError, MissingHeader, "", 0))
  {
    LoadMatchesReference(input, opts, schema, conv, validate);
  }

  /** A successful load yields one record per data line, in input order:
      the line parsed against the schema and passed by the validation hook. */
  lemma LoadSuccess(input: seq<string>, opts: Options, schema: Schema, conv: Converter, validate: Validator)
    requires Load(input, opts, schema, conv, validate).Success?
    ensures DataLines(input, opts).Some?
    ensures var data, records := DataLines(input, opts).value, Load(input, opts, schema, conv, validate).value;
      && |records| == |data|
      && forall k :: 0 <= k < |data| ==>
           && ParseValues(input[data[k]], opts.delimiter, schema, conv) == Success(records[k])
           && validate(records[k]).None?
  {
    LoadMatchesReference(input, opts, schema, conv, validate);
    var data := DataLines(input, opts).value;
    ProcessAllRecords(input, data, opts.delimiter, schema, conv, validate, Load(input, opts, schema, conv, validate).value);
  }

  /** Records gathered from the data lines are those lines parsed and
      passed by the hook. */
  lemma ProcessAllRecords(input: seq<string>, data: seq<nat>, delim: char, schema: Schema, conv: Converter, validate: Validator, records: seq<Record>)
    requires forall k :: 0 <= k < |data| ==> data[k] < |input|
    requires ProcessAll(input, data, delim, schema, conv, validate) == Success(records)
    ensures |records| == |data|
    ensures forall k :: 0 <= k < |data| ==>
      ParseValues(input[data[k]], delim, schema, conv) == Success(records[k]) && validate(records[k]).None?
  {
    ProcessAllSpec(input, data, delim, schema, conv, validate);
    forall k | 0 <= k < |data|
      ensures ParseValues(input[data[k]], delim, schema, conv) == Success(records[k]) && validate(records[k]).None?
    {
      assert ProcessLine(input[data[k]], data[k] + 1, delim, schema, conv, validate) == Success(records[k]);
    }
  }

  /** Conversely, when every data line parses and validates, `load`
      succeeds. */
  lemma LoadSucceedsWhenAllLinesDo(input: seq<string>, opts: Options, schema: Schema, conv: Converter, validate: Validator)
    requires DataLines(input, opts).Some?
    requires var data := DataLines(input, opts).value;
      forall k :: 0 <= k < |data| ==>
        && ParseValues(input[data[k]], opts.delimiter, schema, conv).Success?
        && validate(ParseValues(input[data[k]], opts.delimiter, schema, conv).value).None?
    ensures Load(input, opts, schema, conv, validate).Success?
  {
    LoadMatchesReference(input, opts, schema, conv, validate);
    ProcessAllSpec(input, DataLines(input, opts).value, opts.delimiter, schema, conv, validate);
  }

  /** The first data line that fails decides the error of `load`: a parse
      or format error carries that line and its 1-based line number, a
      validation error is passed on as the hook raised it. */
  lemma LoadFirstFailure(input: seq<string>, opts: Options, schema: Schema, conv: Converter, validate: Validator, k: nat)
    requires DataLines(input, opts).Some?
    requires var data := DataLines(input, opts).value;
      && k < |data|
      && ProcessLine(input[data[k]], data[k] + 1, opts.delimiter, schema, conv, validate).Failure?
      && forall j :: 0 <= j < k ==> ProcessLine(input[data[j]], data[j] + 1, opts.delimiter, schema, conv, validate).Success?
    ensures var data := DataLines(input, opts).value;
      var line := input[data[k]];
      var r := Load(input, opts, schema, conv, validate);
      && r.Failure?
      && (ParseValues(line, opts.delimiter, schema, conv).Failure? ==>
            var e := ParseValues(line, opts.delimiter, schema, conv).error;
            r.error == Error(e.kind, e.message, line, data[k] + 1))
      && (ParseValues(line, opts.delimiter, schema, conv).Success? ==>
            Some(r.error) == validate(ParseValues(line, opts.delimiter, schema, conv).value))
  {
    LoadMatchesReference(input, opts, schema, conv, validate);
    ProcessAllFirstFailure(input, DataLines(input, opts).value, opts.delimiter, schema, conv, validate, k);
  }

  /** The data lines are the non-comment lines in input order. With a
      header expected there are none exactly when every line is a comment;
      otherwise the header is the first non-comment line, and the data lines
      are all non-comment lines after it. */
  lemma {:induction false} DataLinesSpec(input: seq<string>, opts: Options)
    ensures DataLines(input, opts).None? <==>
      opts.header && forall j :: 0 <= j < |input| ==> IsComment(input[j], opts.comment)
    ensures DataLines(input, opts).Some? ==>
      var data := DataLines(input, opts).value;
      && (forall k :: 0 <= k < |data| ==> !IsComment(input[data[k]], opts.comment))
      && (forall k, l :: 0 <= k < l < |data| ==> data[k] < data[l])
      && (!opts.header ==> forall j :: 0 <= j < |input| && !IsComment(input[j], opts.comment) ==> j in data)
    ensures opts.header && DataLines(input, opts).Some? ==>
      exists h :: 0 <= h < |input| && !IsComment(input[h], opts.comment) &&
        (forall j :: 0 <= j < h ==> IsComment(input[j], opts.comment)) &&
        (forall j :: h < j < |input| && !IsComment(input[j], opts.comment) ==> j in DataLines(input, opts).value) &&
        (forall k :: 0 <= k < |DataLines(input, opts).value| ==> h < DataLines(input, opts).value[k])
  {
    DataLinesNone(input, opts);
    DataLinesOrdered(input, opts);
    DataLinesAfterHeader(input, opts);
  }

  /** There are no data lines exactly when a header is expected and every
      line is a comment. */
  lemma {:induction false} DataLinesNone(input: seq<string>, opts: Options)
    ensures DataLines(input, opts).None? <==>
      opts.header && forall j :: 0 <= j < |input| ==> IsComment(input[j], opts.comment)
  {
    var lines := NonComment(input, opts.comment, 0);
    NonCommentSound(input, opts.comment, 0);
    NonCommentComplete(input, opts.comment, 0);
    NoLinesAllComments(input, opts.comment, lines);
  }

  /** The data lines are non-comment lines in increasing order, and all of
      them when no header is expected. */
  lemma {:induction false} DataLinesOrdered(input: seq<string>, opts: Options)
    ensures DataLines(input, opts).Some? ==>
      var data := DataLines(input, opts).value;
      && (forall k :: 0 <= k < |data| ==> !IsComment(input[data[k]], opts.comment))
      && (forall k, l :: 0 <= k < l < |data| ==> data[k] < data[l])
      && (!opts.header ==> forall j :: 0 <= j < |input| && !IsComment(input[j], opts.comment) ==> j in data)
  {
    var lines := NonComment(input, opts.comment, 0);
    NonCommentSound(input, opts.comment, 0);
    NonCommentIncreasing(input, opts.comment, 0);
    NonCommentComplete(input, opts.comment, 0);
    if DataLines(input, opts).Some? {
      DataOfLines(input, opts.comment, opts.header, lines, DataLines(input, opts).value);
    }
  }

  /** With a header expected, the header is the first non-comment line and
      the data lines are the non-comment lines after it. */
  lemma {:induction false} DataLinesAfterHeader(input: seq<string>, opts: Options)
    ensures opts.header && DataLines(input, opts).Some? ==>
      exists h :: 0 <= h < |input| && !IsComment(input[h], opts.comment) &&
        (forall j :: 0 <= j < h ==> IsComment(input[j], opts.comment)) &&
        (forall j :: h < j < |input| && !IsComment(input[j], opts.comment) ==> j in DataLines(input, opts).value) &&
        (forall k :: 0 <= k < |DataLines(input, opts).value| ==> h < DataLines(input, opts).value[k])
  {
    var lines := NonComment(input, opts.comment, 0);
    if opts.header && lines != [] {
      NonCommentSound(input, opts.comment, 0);
      NonCommentIncreasing(input, opts.comment, 0);
      NonCommentComplete(input, opts.comment, 0);
      HeaderSplit(input, opts.comment, lines);
      HeaderWitness(input, opts.comment, lines[0], DataLines(input, opts).value);
    }
  }

  /** Positions listing every non-comment line are empty exactly when every
      line is a comment. */
  lemma {:induction false} NoLinesAllComments(input: seq<string>, c: char, lines: seq<nat>)
    requires forall k :: 0 <= k < |lines| ==> lines[k] < |input| && !IsComment(input[lines[k]], c)
    requires forall j :: 0 <= j < |input| && !IsComment(input[j], c) ==> j in lines
    ensures lines == [] <==> forall j :: 0 <= j < |input| ==> IsComment(input[j], c)
  {
    if lines != [] {
      assert !IsComment(input[lines[0]], c);
    }
  }

  /** The data lines, all non-comment positions or all but the first, are
      non-comment lines in increasing order, and all of them without a
      header. */
  lemma {:induction false} DataOfLines(input: seq<string>, c: char, header: bool, lines: seq<nat>, data: seq<nat>)
    requires forall k :: 0 <= k < |lines| ==> lines[k] < |input| && !IsComment(input[lines[k]], c)
    requires forall k, l :: 0 <= k < l < |lines| ==> lines[k] < lines[l]
    requires forall j :: 0 <= j < |input| && !IsComment(input[j], c) ==> j in lines
    requires !header ==> data == lines
    requires header ==> lines != [] && data == lines[1..]
    ensures forall k :: 0 <= k < |data| ==> !IsComment(input[data[k]], c)
    ensures forall k, l :: 0 <= k < l < |data| ==> data[k] < data[l]
    ensures !header ==> forall j :: 0 <= j < |input| && !IsComment(input[j], c) ==> j in data
  {
    if header {
      assert forall k :: 0 <= k < |data| ==> data[k] == lines[k + 1];
    }
  }

  /** The header position witnesses the header clause of DataLinesSpec. */
  lemma {:induction false} HeaderWitness(input: seq<string>, c: char, h: nat, data: seq<nat>)
    requires h < |input| && !IsComment(input[h], c)
    requires forall j :: 0 <= j < h ==> IsComment(input[j], c)
    requires forall j :: h < j < |input| && !IsComment(input[j], c) ==> j in data
    requires forall k :: 0 <= k < |data| ==> h < data[k]
    ensures
      exists h' :: 0 <= h' < |input| && !IsComment(input[h'], c) &&
        (forall j :: 0 <= j < h' ==> IsComment(input[j], c)) &&
        (forall j :: h' < j < |input| && !IsComment(input[j], c) ==> j in data) &&
        (forall k :: 0 <= k < |data| ==> h' < data[k])
  {
  }

  /** Of the non-comment positions, the first is the first non-comment line
      and the rest are all non-comment lines after it. */
  lemma {:induction false} HeaderSplit(input: seq<string>, c: char, lines: seq<nat>)
    requires lines != []
    requires forall k :: 0 <= k < |lines| ==> lines[k] < |input| && !IsComment(input[lines[k]], c)
    requires forall k, l :: 0 <= k < l < |lines| ==> lines[k] < lines[l]
    requires forall j :: 0 <= j < |input| && !IsComment(input[j], c) ==> j in lines
    ensures forall j :: 0 <= j < lines[0] ==> IsComment(input[j], c)
    ensures forall j :: lines[0] < j < |input| && !IsComment(input[j], c) ==> j in lines[1..]
    ensures forall k :: 0 <= k < |lines[1..]| ==> lines[0] < lines[1..][k]
  {
    var h, data := lines[0], lines[1..];
    forall j | 0 <= j < h
      ensures IsComment(input[j], c)
    {
      if !IsComment(input[j], c) {
        assert false;
      }
    }
    forall j | h < j < |input| && !IsComment(input[j], c)
      ensures j in data
    {
      var k :| 0 <= k < |lines| && lines[k] == j;
      assert data[k - 1] == j;
    }
    assert forall k :: 0 <= k < |data| ==> data[k] == lines[k + 1];
  }
}

=== FILE: parser.dfy ===
/** `detail::parser`: comment skipping, header splitting and record parsing
    over a line reader, with errors annotated by line. */
module TsvParser {
  import opened Wrappers
  import opened Errors
  import opened Conversion
  import opened Split
  import opened Records
  import opened LineReader

  datatype Parser = Parser(source: LineReader, delim: char)

  function NewParser(input: seq<string>, delim: char): Parser {
    Parser(NewReader(input), delim)
  }

  /** A line `skip_comment` skips: empty, or starting with the prefix. With
      the prefix disabled (the NUL character) a line starting with NUL is
      skipped too, since the test is a plain comparison. */
  predicate IsComment(line: string, prefix: char) {
    line == [] || line[0] == prefix
  }

  /** `parser::skip_comment(prefix)`: consumes lines while the next one is a
      comment (see SkipCommentSpec). */
  function SkipComment(p: Parser, prefix: char): (q: Parser)
    ensures q.delim == p.delim
    ensures |Pending(q.source)| <= |Pending(p.source)|
    ensures q.source.lineNumber + |q.source.stream| == p.source.lineNumber + |p.source.stream|
    decreases |Pending(p.source)|
  {
    var (next, r) := Peek(p.source);
    match next
    case None => Parser(r, p.delim)
    case Some(line) =>
      if IsComment(line, prefix) then SkipComment(Parser(Consume(r).1, p.delim), prefix)
      else Parser(r, p.delim)
  }

  /** `skip_comment` consumes exactly the maximal run of comment lines at the
      front of the pending input. The first remaining line, if any, is not a
      comment and has been looked ahead at. */
  lemma {:induction false} SkipCommentSpec(p: Parser, prefix: char)
    ensures
      var before, after := Pending(p.source), Pending(SkipComment(p, prefix).source);
      && after == before[|before| - |after|..]
      && (forall i :: 0 <= i < |before| - |after| ==> IsComment(before[i], prefix))
      && (after != [] ==> !IsComment(after[0], prefix) && SkipComment(p, prefix).source.available)
    decreases |Pending(p.source)|
  {
    var (next, r) := Peek(p.source);
    if next.Some? && IsComment(next.value, prefix) {
      var p' := Parser(Consume(r).1, p.delim);
      SkipCommentSpec(p', prefix);
      var before, mid, after := Pending(p.source), Pending(p'.source), Pending(SkipComment(p, prefix).source);
      assert SkipComment(p, prefix) == SkipComment(p', prefix);
      assert mid == before[1..];
      assert IsComment(before[0], prefix);
      forall i | 1 <= i < |before| - |after|
        ensures IsComment(before[i], prefix)
      {
        assert before[i] == mid[i - 1];
      }
    }
  }

  /** Skipping keeps the reader reachable. */
  lemma {:induction false} SkipCommentReads(p: Parser, prefix: char, input: seq<string>)
    requires Reads(p.source, input)
    ensures Reads(SkipComment(p, prefix).source, input)
    decreases |Pending(p.source)|
  {
    var (next, r) := Peek(p.source);
    PeekReads(p.source, input);
    if next.Some? && IsComment(next.value, prefix) {
      ConsumeReads(r, input);
      SkipCommentReads(Parser(Consume(r).1, p.delim), prefix, input);
    }
  }

  /** `parser::parse_fields(fields)`: consumes one line and appends its
      tokens, leaving the existing entries alone; false, with nothing
      appended, at the end of the input. */
  function ParseFields(p: Parser, fields: seq<string>): (res: (bool, seq<string>, Parser))
    ensures !res.0 <==> Pending(p.source) == []
    ensures !res.0 ==> res.1 == fields && res.2 == p
    ensures res.0 ==> |res.1| >= |fields| && res.1[..|fields|] == fields
    ensures res.0 ==>
      var line, added := Pending(p.source)[0], res.1[|fields|..];
      && Pending(res.2.source) == Pending(p.source)[1..]
      && res.2.source.lineNumber == p.source.lineNumber + Fetches(p.source)
      && (added == [] <==> line == [])
      && (forall i :: 0 <= i < |added| ==> p.delim !in added[i])
      && (EndsWith(line, p.delim) ==> Join(added, p.delim) + [p.delim] == line)
      && (!EndsWith(line, p.delim) ==> Join(added, p.delim) == line)
    ensures res.2 == Parser(Consume(p.source).1, p.delim)
  {
    match Consume(p.source).0
    case None => (false, fields, p)
    case Some(line) =>
      var tokens := Tokens(line, p.delim);
      TokensJoin(line, p.delim);
      assert (fields + tokens)[|fields|..] == tokens;
      (true, fields + tokens, Parser(Consume(p.source).1, p.delim))
  }

  /** `parser::parse_record(record)`: consumes one line and parses it as a
      record. At the end of the input it reports no record (the caller's
      record is left untouched). Any error is re-raised with the consumed
      line and the reader's line count, which includes that line. The line
      is consumed before parsing starts, so the parser comes back past it
      whether or not the parse succeeds. */
  function ParseRecord(p: Parser, schema: Schema, conv: Converter): (r: (Result<Option<Record>, Error>, Parser))
    ensures Pending(p.source) == [] ==> r == (Success(None), p)
    ensures Pending(p.source) != [] ==>
      var line, lineNumber := Pending(p.source)[0], p.source.lineNumber + Fetches(p.source);
      var parsed := ParseValues(line, p.delim, schema, conv);
      && (r.0.Success? <==> parsed.Success?)
      && (r.0.Failure? ==> r.0.error == Stamp(parsed.error, line, lineNumber))
      && (r.0.Success? ==> r.0.value == Some(parsed.value))
      && r.1.delim == p.delim
      && r.1.source == Consume(p.source).1
  {
    match Consume(p.source).0
    case None => (Success(None), p)
    case Some(line) =>
      var next := Parser(Consume(p.source).1, p.delim);
      match ParseValues(line, p.delim, schema, conv)
      case Failure(e) => (Failure(Stamp(e, line, next.source.lineNumber)), next)
      case Success(record) => (Success(Some(record)), next)
  }

  /** Success or failure, `parse_record` on a reachable reader moves past
      exactly one line, the one it reports about: a caller that catches the
      error and calls again is given the following line. */
  lemma ParseRecordMovesOn(p: Parser, input: seq<string>, schema: Schema, conv: Converter)
    requires Reads(p.source, input) && Consumed(p.source) < |input|
    ensures
      var d, r := Consumed(p.source), ParseRecord(p, schema, conv);
      && Reads(r.1.source, input)
      && Consumed(r.1.source) == d + 1
      && (r.0.Failure? ==> r.0.error.line == input[d] && r.0.error.lineNumber == d + 1)
  {
    ReadsPending(p.source, input);
    ConsumeReads(p.source, input);
  }

  /** A record parsed from a line holds, as field `i`, token `i` of the line
      converted to field `i`'s type; the line has exactly as many tokens as
      the record has fields. */
  lemma ParseRecordFields(p: Parser, schema: Schema, conv: Converter)
    requires ParseRecord(p, schema, conv).0.Success? && ParseRecord(p, schema, conv).0.value.Some?
    ensures
      var record, tokens := ParseRecord(p, schema, conv).0.value.value, Tokens(Pending(p.source)[0], p.delim);
      && |record| == |schema| == |tokens|
      && (forall i :: 0 <= i < |schema| ==> conv(schema[i], tokens[i]) == Success(record[i]))
  {
    LockstepMatchesTokens(Pending(p.source)[0], p.delim, schema, conv);
  }
}

=== FILE: records.dfy ===
/** `detail::parse_record`: a record line is split and converted field by
    field, left to right, in lockstep. The schema stands in for the field
    type list the C++ code reflects from the record type; its length is the
    record's arity. */
module Records {
  import opened Wrappers
  import opened Errors
  import opened Conversion
  import opened Split

  /** The field types of a record type, in declaration order. */
  type Schema = seq<FieldKind>

  /** A parsed record: one value per schema field. */
  type Record = seq<Value>

  /** `detail::parse_record<Record>(text, delim, field_types)`: for each field
      in turn take a token with `split_consume` (a missing field when the
      text is used up) and convert it; text left over after the last field
      is an excess field. The first failure wins. */
  function ParseValues(text: string, delim: char, schema: Schema, conv: Converter): (r: Result<Record, Error>)
    ensures r.Success? ==> |r.value| == |schema|
    decreases |schema|
  {
    if schema == [] then
      if text == [] then Success([]) else Failure(Raise(FormatError, ExcessField))
    else
      match SplitConsume(text, delim)
      case Failure(e) => Failure(e)
      case Success((token, rest)) =>
        match conv(schema[0], token)
        case Failure(e) => Failure(e)
        case Success(v) =>
          match ParseValues(rest, delim, schema[1..], conv)
          case Failure(e) => Failure(e)
          case Success(vs) => Success([v] + vs)
  }

  /** True when token `i` converts to field `i`'s type. */
  predicate Converts(tokens: seq<string>, schema: Schema, conv: Converter, i: nat)
    requires i < |tokens| && i < |schema|
  {
    conv(schema[i], tokens[i]).Success?
  }

  /** Dropping the first token and the first field shifts the indices by one. */
  lemma ConvertsShift(tokens: seq<string>, schema: Schema, conv: Converter)
    requires tokens != [] && schema != []
    ensures forall i :: 0 <= i < |tokens| - 1 && i < |schema| - 1 ==>
      Converts(tokens[1..], schema[1..], conv, i) == Converts(tokens, schema, conv, i + 1)
  {
  }

  /** The reference record parser, working on a line that has already been
      cut into all its tokens: the first token that fails to convert decides
      the error; when all available tokens convert, too few tokens is a
      missing field and too many an excess field. */
  function FromTokens(tokens: seq<string>, schema: Schema, conv: Converter): (r: Result<Record, Error>)
    ensures r.Success? <==>
      |tokens| == |schema| && forall i :: 0 <= i < |schema| ==> Converts(tokens, schema, conv, i)
    ensures r.Success? ==>
      |r.value| == |schema| &&
      forall i :: 0 <= i < |schema| ==> conv(schema[i], tokens[i]) == Success(r.value[i])
    decreases |schema|
  {
    if schema == [] then
      if tokens == [] then Success([]) else Failure(Raise(FormatError, ExcessField))
    else if tokens == [] then
      Failure(Raise(FormatError, MissingField))
    else
      match conv(schema[0], tokens[0])
      case Failure(e) =>
        assert !Converts(tokens, schema, conv, 0);
        Failure(e)
      case Success(v) =>
        var tail := FromTokens(tokens[1..], schema[1..], conv);
        ConvertsShift(tokens, schema, conv);
        match tail
        case Failure(e) => Failure(e)
        case Success(vs) => Success([v] + vs)
  }

  /** The first token that does not convert decides the error. */
  lemma {:induction false} FromTokensFirstFailure(tokens: seq<string>, schema: Schema, conv: Converter, i: nat)
    requires i < |tokens| && i < |schema| && !Converts(tokens, schema, conv, i)
    requires forall j :: 0 <= j < i ==> Converts(tokens, schema, conv, j)
    ensures FromTokens(tokens, schema, conv) == Failure(conv(schema[i], tokens[i]).error)
    decreases i
  {
    if i > 0 {
      assert Converts(tokens, schema, conv, 0);
      ConvertsShift(tokens, schema, conv);
      FromTokensFirstFailure(tokens[1..], schema[1..], conv, i - 1);
    }
  }

  /** When every token that meets a field converts, a count mismatch decides
      the error: too few tokens is a missing field, too many an excess one. */
  lemma {:induction false} FromTokensCountMismatch(tokens: seq<string>, schema: Schema, conv: Converter)
    requires forall i :: 0 <= i < |tokens| && i < |schema| ==> Converts(tokens, schema, conv, i)
    ensures |tokens| < |schema| ==> FromTokens(tokens, schema, conv) == Failure(Raise(FormatError, MissingField))
    ensures |tokens| > |schema| ==> FromTokens(tokens, schema, conv) == Failure(Raise(FormatError, ExcessField))
    decreases |schema|
  {
    if tokens != [] && schema != [] {
      assert Converts(tokens, schema, conv, 0);
      ConvertsShift(tokens, schema, conv);
      FromTokensCountMismatch(tokens[1..], schema[1..], conv);
    }
  }

  /** Splitting in lockstep with conversion gives the same outcome, error
      included, as cutting the whole line into tokens first. */
  lemma {:induction false} LockstepMatchesTokens(text: string, delim: char, schema: Schema, conv: Converter)
    ensures ParseValues(text, delim, schema, conv) == FromTokens(Tokens(text, delim), schema, conv)
    decreases |schema|
  {
    if schema != [] && text != [] {
      TokensCons(text, delim);
      var (token, rest) := SplitConsume(text, delim).value;
      LockstepMatchesTokens(rest, delim, schema[1..], conv);
      assert Tokens(text, delim)[1..] == Tokens(rest, delim);
    }
  }

  /** A record with no fields accepts the empty line and nothing else. */
  lemma EmptySchemaAcceptsOnlyEmptyLine(text: string, delim: char, conv: Converter)
    ensures ParseValues(text, delim, [], conv).Success? <==> text == []
  {
  }
}

=== FILE: split.dfy ===
/** Field splitting at a single literal delimiter character, with no quoting
    or escaping: `detail::split_consume` and the token loop of
    `parser::parse_fields`. */
module Split {
  import opened Wrappers
  import opened Errors

  /** `std::string_view::find(c)`: the index of the first occurrence. */
  function Find(s: string, c: char): (r: Option<nat>)
    ensures r.None? <==> c !in s
    ensures r.Some? ==> r.value < |s| && s[r.value] == c && c !in s[..r.value]
  {
    if s == [] then None
    else if s[0] == c then Some(0)
    else
      match Find(s[1..], c)
      case None => None
      case Some(i) =>
        assert s[..i + 1] == [s[0]] + s[1..][..i];
        Some(i + 1)
  }

  /** `detail::split_consume(text, delim)`: the token before the first
      delimiter and the text after it, or the whole text and an empty rest
      when there is no delimiter. Empty text is a missing field. */
  function SplitConsume(text: string, delim: char): (r: Result<(string, string), Error>)
    ensures r.Failure? <==> text == []
    ensures r.Failure? ==> r.error == Raise(FormatError, MissingField)
    ensures r.Success? ==>
      var (token, rest) := r.value;
      && delim !in token
      && |rest| < |text|
      && (token + [delim] + rest == text || (token == text && rest == []))
  {
    if text == [] then
      Failure(Raise(FormatError, MissingField))
    else
      match Find(text, delim)
      case Some(pos) =>
        assert text == text[..pos] + [delim] + text[pos + 1..];
        Success((text[..pos], text[pos + 1..]))
      case None =>
        Success((text, text[|text|..]))
  }

  /** The tokens `parse_fields` cuts from a line: split until the remaining
      text is empty. A delimiter at the very end leaves an empty remainder,
      so it yields no trailing empty token. The tokens are free of the
      delimiter, and there is at least one for every non-empty line. */
  function Tokens(text: string, delim: char): (tokens: seq<string>)
    ensures tokens == [] <==> text == []
    ensures forall i :: 0 <= i < |tokens| ==> delim !in tokens[i]
    decreases |text|
  {
    if text == [] then []
    else
      var (token, rest) := SplitConsume(text, delim).value;
      [token] + Tokens(rest, delim)
  }

  /** Tokens glued back together with the delimiter between them. */
  function Join(tokens: seq<string>, delim: char): string
    decreases |tokens|
  {
    if tokens == [] then []
    else if |tokens| == 1 then tokens[0]
    else tokens[0] + [delim] + Join(tokens[1..], delim)
  }

  predicate EndsWith(s: string, c: char) {
    |s| > 0 && s[|s| - 1] == c
  }

  /** Splitting a non-empty line takes its first token off the front. */
  lemma TokensCons(text: string, delim: char)
    requires text != []
    ensures SplitConsume(text, delim).Success?
    ensures Tokens(text, delim) ==
      [SplitConsume(text, delim).value.0] + Tokens(SplitConsume(text, delim).value.1, delim)
  {
  }

  /** Joining a token in front of at least one more puts a delimiter
      between them. */
  lemma JoinCons(token: string, tail: seq<string>, delim: char)
    requires tail != []
    ensures Join([token] + tail, delim) == token + [delim] + Join(tail, delim)
  {
    assert ([token] + tail)[1..] == tail;
  }

  /** The joined tokens of a line, with its final delimiter put back when
      it has one, give back the line. */
  predicate JoinsBack(text: string, delim: char) {
    if EndsWith(text, delim) then Join(Tokens(text, delim), delim) + [delim] == text
    else Join(Tokens(text, delim), delim) == text
  }

  /** A line whose first split leaves nothing after it is a single token,
      followed by the delimiter or not. */
  lemma JoinsBackSingle(text: string, delim: char)
    requires text != [] && SplitConsume(text, delim).value.1 == []
    ensures JoinsBack(text, delim)
  {
    var token := SplitConsume(text, delim).value.0;
    TokensCons(text, delim);
    assert Tokens(text, delim) == [token];
    if token + [delim] == text {
      assert EndsWith(text, delim);
    } else {
      assert text[|text| - 1] in token;
    }
  }

  /** Putting a token and a delimiter in front of a text keeps its last
      character, so a text rebuilt from its rest is rebuilt whole. */
  lemma RebuildFront(text: string, token: string, rest: string, joined: string, delim: char)
    requires text == token + [delim] + rest && rest != []
    requires EndsWith(rest, delim) ==> joined + [delim] == rest
    requires !EndsWith(rest, delim) ==> joined == rest
    ensures EndsWith(text, delim) ==> token + [delim] + joined + [delim] == text
    ensures !EndsWith(text, delim) ==> token + [delim] + joined == text
  {
    assert text[|text| - 1] == rest[|rest| - 1];
  }

  /** A line that splits into a token and a non-empty rest joins back when
      the rest does. */
  lemma JoinsBackStep(text: string, delim: char)
    requires text != [] && SplitConsume(text, delim).value.1 != []
    requires JoinsBack(SplitConsume(text, delim).value.1, delim)
    ensures JoinsBack(text, delim)
  {
    var (token, rest) := SplitConsume(text, delim).value;
    var tail := Tokens(rest, delim);
    TokensCons(text, delim);
    JoinCons(token, tail, delim);
    RebuildFront(text, token, rest, Join(tail, delim), delim);
  }

  /** Joining the tokens of a line reproduces the line, less its final
      delimiter when it ends in one. With the contract of Tokens this fixes the
      tokens uniquely. */
  lemma {:induction false} TokensJoin(text: string, delim: char)
    ensures EndsWith(text, delim) ==> Join(Tokens(text, delim), delim) + [delim] == text
    ensures !EndsWith(text, delim) ==> Join(Tokens(text, delim), delim) == text
    decreases |text|
  {
    if text != [] {
      var rest := SplitConsume(text, delim).value.1;
      if rest == [] {
        JoinsBackSingle(text, delim);
      } else {
        TokensJoin(rest, delim);
        JoinsBackStep(text, delim);
      }
    }
  }
}

=== FILE: wrappers.dfy ===
/** Option and Result, the failure-carrying values that stand in for the
    library's `std::optional` returns and its exceptions. */
module Wrappers {

  datatype Option<+T> = None | Some(value: T)

  /** `Failure` carries what the C++ code would throw. */
  datatype Result<+T, +E> = Success(value: T) | Failure(error: E)
}
